=== FILE: README.md ===
# printable_binary codec, modelled in Dafny

`printable_binary` turns arbitrary bytes into printable UTF-8 text and back. Each of the
256 byte values has a glyph of one to three UTF-8 bytes. Printable ASCII stands for itself.
Control bytes, space, shell-unsafe punctuation and DEL get hand-picked symbols. The upper
half follows two rules: `C3 b` for 0x80..0xBF and `C4 (b - 0x40)` for 0xC0..0xFF, with two
overrides. The decoder scans the text longest match first, through a 65536-slot table keyed
by a hash of the slice. Between encoder and decoder the text may be grouped into
space-separated groups and lines. Before decoding, spaces, tabs, line feeds and carriage
returns are stripped.

The model covers the codec of `printable_binary.c`:

- `Bytes` holds the byte type, an option type and the four layout bytes.
- `Utf8` holds `make_utf8`, `utf8_hash` and `utf8_sequence_length`.
  - The hash is written with arithmetic.
  - `BitwiseHash` restates it with the C code's masks and shifts on 16-bit values.
  - `HashIsBitwise` proves the two agree.
- `CodeTable` holds the encode table and the decode table.
  - `Glyph` is the entry that `init_tables` builds for a byte.
  - `SlotAfter` is a decode slot after the first `n` iterations of the construction loop. The latest write wins, exactly as the C loop's silent overwrite.
  - `Unhash` is an independently written inverse of the hash on the glyphs. Through it, the proofs show that the hash is injective on the 256 glyphs, so no slot is ever overwritten.
- `Codec` holds the functional encoder and decoder.
  - `Decode` tries lengths from the lead byte's length, cut to the input left, down to 1. It never tries a length above 3.
  - The codec keeps the C code's quirks:
    - matching is by hash, so continuation bytes are not checked;
    - lead bytes 0x80..0xDF all announce length 2;
    - a lead byte F0..FF is skipped without a lookup unless the input ends within three bytes.
- `Buffers` reduces `buffer_t` to contents and capacity. An append past capacity, where the C code exits, is `None`.
- `BufferedCodec` and `BufferedLayout` mirror the C loops over such buffers: `encode_data`, `decode_data`, `format_output` and `clean_decode_input`. Each loop is proved to compute the functional definition without overflowing its pre-sized buffer.
- `Layout` holds the functional formatter and cleaner, and the formatting round trip.
- `Arith` holds the division facts behind the size estimate.

One might expect an invalid lead byte followed by a valid glyph to decode to the glyph's
byte. The code does not do that, and the model follows the code. The lead byte's announced
length is tried first, and the longer hash can land on the slot of another glyph:

- A lead byte E0..EF asks for three bytes. EC followed by CE 9E (the glyph of 0x1C) hashes
  to 0xC39E. That is the slot of C3 9E, the glyph of 0x9E, so EC CE 9E decodes to 0x9E
  (`Codec.GarbageLeadAbsorbsGlyph`).
- A lead byte F0..FF asks for four bytes. Away from the end no length is tried and the byte
  is skipped. Within three bytes of the end the length is cut to what is left, so the lead
  byte is looked up together with what follows it. FC CE 9E decodes to 0x9E
  (`Codec.FourByteLeadAbsorbsGlyph`).
- A two-byte hash can equal a three-byte one. FE 54 hashes to 0xFE54, which is also the hash
  of EF B9 94, the glyph of ';'. So FE 54 decodes to 0x3B
  (`Codec.TwoByteHashMeetsThreeByteGlyph`).

Some bytes are dropped one at a time whatever follows them (`Codec.StrayByteDropped`). These
are the bytes every lookup under them misses:

- a one-byte value that is not a one-byte glyph;
- a continuation byte or C0/C1;
- a two-byte lead that starts no glyph: CC, CD or D0..DF;
- a lead of E0..FF whose three-byte and two-byte keys miss every glyph: E1, E3..EB, ED, EE,
  F1, F3..FB and FD.

## Model

| member | source | states |
|---|---|---|
| Utf8.StrLen | printable_binary.c:94 | the length is the position of the first NUL at or after the start: every byte before it is non-zero |
| Utf8.MakeUtf8 | printable_binary.c:92-97 | the entry is the prefix of the character array before its first NUL, fits in 4 bytes and holds no NUL |
| Utf8.Hash | printable_binary.c:100-110 | every key is below the decode table size 65536, and a one-byte slice is its own key |
| Utf8.BitwiseHash | printable_binary.c:100-110 | no contract; it transcribes the C masks and shifts, and `Utf8.HashIsBitwise` ties it to `Utf8.Hash` |
| Utf8.HashIsBitwise | printable_binary.c:100-110 | the arithmetic hash equals the C code's mask-and-shift hash on 16 bits for slices of every length |
| Utf8.SeqLen | printable_binary.c:221-226 | the length is 1..4; it agrees with the RFC 3629 lead-byte rule on every well-formed lead byte, but gives 2 for 0x80..0xC1 and 4 for F5..FF |
| CodeTable.Special | printable_binary.c:127-189 | no contract; it is the table of override literals, pinned down by `CodeTable.OverrideGlyph`, `CodeTable.GlyphExamples` and the shape lemmas below |
| CodeTable.Glyph | printable_binary.c:192-207 | a glyph has at most 4 bytes; the lemmas below fix its content (override, the byte itself, or the C3/C4 rule) |
| CodeTable.EncodeTableTotal | printable_binary.c:192-207 | every byte gets a glyph of 1 to 3 bytes, so the encoder's length guard never drops a byte |
| CodeTable.OneByteGlyphs | printable_binary.c:127-207 | a glyph is one byte exactly for 0x21..0x7E minus the overridden punctuation, and then it is the byte itself |
| CodeTable.MultiByteGlyphs | printable_binary.c:127-207 | a longer glyph starts with a lead byte in C2..EF whose announced length is the glyph's length, followed by continuation bytes |
| CodeTable.GlyphHasNoLayout | printable_binary.c:127-207 | no glyph contains a space, tab, line feed or carriage return |
| CodeTable.SystematicGlyphs | printable_binary.c:199-207 | 0x80..0xBF other than 0x98 and 0xB8 map to C3 b; 0xC0..0xFF map to C4 (b - 0x40) |
| CodeTable.OverrideGlyph | printable_binary.c:192-194 | a byte with an override literal gets exactly that literal |
| CodeTable.GlyphExamples | printable_binary.c:127-189 | the entries of 0x00, 0x0B, 0x1C and 0x7F are the literal bytes E2 88 85, E2 8A A7, CE 9E and E2 8C A6 |
| CodeTable.GlyphHashInjective | printable_binary.c:211-217 | distinct bytes have glyphs with distinct hashes, and distinct glyphs |
| CodeTable.SlotAfter | printable_binary.c:211-217 | no contract; it is a slot after the first `n` loop iterations, last write winning, pinned down by `CodeTable.SlotKeepsEntry` and `CodeTable.SlotHoldsPreimage` |
| CodeTable.DecodeSlot | printable_binary.c:211-217 | no contract; it is the slot after all 256 iterations, pinned down by `CodeTable.DecodeTableExact` |
| CodeTable.SlotKeepsEntry | printable_binary.c:211-217 | once the loop has written entry i, no later iteration overwrites its slot |
| CodeTable.SlotHoldsPreimage | printable_binary.c:211-217 | a valid slot holds only a byte whose glyph hashes to that slot |
| CodeTable.DecodeTableExact | printable_binary.c:211-217 | slot h is valid and holds i if and only if h is the hash of the glyph of i |
| CodeTable.DecodeTableInverse | printable_binary.c:211-217 | looking up the hash of any glyph gives back its byte |
| CodeTable.DecodeSlotMiss | printable_binary.c:211-217 | a key that is the hash of no glyph leaves its slot invalid |
| Buffers.BufferInit | printable_binary.c:54-63 | a new buffer is empty with the requested capacity, or 8192 when 0 is requested |
| Buffers.Append | printable_binary.c:66-74 | an append succeeds exactly when the bytes fit; it then keeps the old contents as prefix, adds the bytes after them and keeps the capacity |
| Buffers.AppendByte | printable_binary.c:77-79 | a one-byte append succeeds exactly when there is room and adds that byte at the end |
| Codec.Encode | printable_binary.c:229-242 | the encoding is at least as long as the input and at most three times as long |
| Codec.EncodeConcat | printable_binary.c:234-239 | encoding distributes over concatenation: the glyphs come in input order |
| Codec.EncodeSnoc | printable_binary.c:234-239 | one more input byte appends exactly that byte's glyph |
| Codec.EncodeHasNoLayout | printable_binary.c:229-242 | encoded text contains no layout byte |
| Codec.Match | printable_binary.c:263-274 | no contract; it is the downward search over lengths, pinned down by `Codec.MatchIsFirstHit` and `BufferedCodec.TryLengths` |
| Codec.MatchIsFirstHit | printable_binary.c:263-274 | lengths are tried downward from the start length but never above 3; a hit is the longest fitting length with a valid slot, and no hit means every fitting length missed |
| Codec.FirstTry | printable_binary.c:252-258 | the first length tried is between 1 and the bytes left, and at most 4 |
| Codec.Decode | printable_binary.c:245-283 | the decoded output is never longer than the input |
| Codec.DecodeGlyph | printable_binary.c:251-280 | a glyph at the front decodes to its byte and scanning resumes right after it, whatever follows |
| Codec.DecodeFront | printable_binary.c:256-272 | when the first slice tried hashes like the glyph of i, the decoder emits i and moves past that slice |
| Codec.RoundTrip | printable_binary.c:229-283 | decoding the encoding of any byte sequence, the empty one included, gives it back |
| Codec.RoundTripAllBytes | printable_binary.c:229-283 | all 256 byte values in order survive the round trip, through at most 768 bytes of text |
| Codec.NullAndDeleteRoundTrip | printable_binary.c:229-283 | 0x00 encodes to E2 88 85 and DEL to E2 8C A6, and each decodes back |
| Codec.NoGlyphKeyMisses | printable_binary.c:211-217 | slots in 0x80..0x1FFF, 0x3000..0xC1FF, 0xCC00..0xCDFF and 0xD000..0xFDFF are all invalid |
| Codec.StrayNoMatch | printable_binary.c:263-274 | at a stray byte (the classes listed above) no length the decoder tries hits |
| Codec.StrayByteDropped | printable_binary.c:276-279 | a stray byte (non-glyph ASCII, 80..C1, CC, CD, D0..DF, E1, E3..EB, ED, EE, F1, F3..FB, FD) is skipped alone, and what follows decodes as if it were absent |
| Codec.FourByteLeadSkipped | printable_binary.c:263 | a lead byte F0..FF with three or more bytes after it is skipped without a lookup |
| Codec.FourByteLeadNearEnd | printable_binary.c:256-258 | near the end the same lead byte is looked up on the cut length: FF B9 97 decodes to 0x21 |
| Codec.FourByteLeadAwayFromEnd | printable_binary.c:263-279 | F0..FF followed by two stray bytes and a glyph decodes to the glyph's byte alone |
| Codec.HashCollisionDecodes | printable_binary.c:105-108 | EC 8A AF is no glyph but hashes to the slot of C2 AF, so it decodes to 0x01 |
| Codec.GarbageLeadAbsorbsGlyph | printable_binary.c:263-272 | EC CE 9E decodes to 0x9E, not to 0x1C, whose glyph is CE 9E |
| Codec.FourByteLeadAbsorbsGlyph | printable_binary.c:256-272 | near the end a lead byte F0..FF is looked up with the bytes after it: FC CE 9E decodes to 0x9E |
| Codec.TwoByteHashMeetsThreeByteGlyph | printable_binary.c:100-110 | the two bytes FE 54 hash like the glyph EF B9 94 of ';' and decode to 0x3B |
| BufferedCodec.EncodeData | printable_binary.c:229-242 | the loop writes exactly the encoding into a buffer of 3 bytes per input byte (8192 for empty input) without overflow |
| BufferedCodec.EncodeRoom | printable_binary.c:231-237 | before each append, the encoding so far plus the next glyph fits in 3 bytes per input byte |
| BufferedCodec.EncodeAdvance | printable_binary.c:234-239 | appending the next glyph to the encoding of the prefix encodes the prefix one byte longer |
| BufferedCodec.TryLengths | printable_binary.c:263-274 | the inner loop returns exactly the first-hit search of the functional decoder |
| BufferedCodec.DecodeStepAt | printable_binary.c:251-280 | each iteration advances by at least one byte, stays within the input, emits at most as many bytes as it consumes, and the decoding from there is what it emits (one byte on a hit, nothing on a miss) followed by the decoding from where it resumes |
| BufferedCodec.DecodeAdvance | printable_binary.c:251-280 | the loop invariant (output so far plus decoding of the rest is the whole decoding, output no longer than the bytes consumed) is kept by each iteration |
| BufferedCodec.DecodeData | printable_binary.c:245-283 | the loop writes exactly the decoding into a buffer of one byte per input byte without overflow |
| Layout.Filter | printable_binary.c:375-379 | no contract; it is the byte-dropping loop, pinned down by `Layout.FilterConcat` and `Layout.FilterIdentity` |
| Layout.Clean | printable_binary.c:369-383 | no contract; it drops the four layout bytes, pinned down by `Layout.CleanCounts`, `Layout.CleanHasNoLayout` and `Layout.CleanIdentity` |
| Layout.FilterConcat | printable_binary.c:375-379 | filtering distributes over concatenation, keeping the order of what it keeps |
| Layout.FilterIdentity | printable_binary.c:375-379 | a filter leaves its input unchanged if and only if the input holds no selected byte |
| Layout.CleanCounts | printable_binary.c:369-383 | cleaning removes every layout byte and keeps every other byte value as many times as it occurs |
| Layout.CleanHasNoLayout | printable_binary.c:369-383 | the cleaned text contains no space, tab, line feed or carriage return |
| Layout.CleanIdentity | printable_binary.c:369-383 | cleaning leaves text unchanged if and only if it has no layout byte |
| Layout.CleanIdempotent | printable_binary.c:369-383 | cleaning twice is cleaning once |
| Layout.Sep | printable_binary.c:307-314 | at most two bytes are inserted after a character, all spaces or line feeds; `Layout.SepRule` states which |
| Layout.SepRule | printable_binary.c:308-314 | after the c-th character (on encoded text the c-th glyph, by `Layout.FormatKeepsGlyphsWhole`) and with more input to come, a space follows when c is a multiple of the group size g, and a space and a line feed when c is a multiple of g * k, matching the usage text "groups of N chars, M groups per line" (line 393); nothing follows otherwise |
| Layout.CharEnd | printable_binary.c:296-305 | each character covers 1 to 4 bytes and ends within the input |
| Layout.FormatFrom | printable_binary.c:295-315 | no contract; it is the character loop from a byte position, pinned down on encoded text by `Layout.FormatKeepsGlyphsWhole` (whole glyphs, each followed by the separator `Layout.SepRule` gives), and on any text by `Layout.FormatOnlyInsertsSeparators`, `Layout.FormatEnds` and `Layout.FormatFromLength` |
| Layout.Format | printable_binary.c:286-318 | no contract; it is the whole formatter, pinned down by `Layout.FormatKeepsGlyphsWhole` and the lemmas below |
| Layout.FormatGlyphs | printable_binary.c:293-315 | no contract; a reference formatter written on the bytes before encoding: each byte's glyph, whole, then the separator due after the c-th glyph |
| Layout.FormatKeepsGlyphsWhole | printable_binary.c:293-315 | formatting the encoding of any input groups whole glyphs, as the usage text "groups of N chars" (line 393) and the character-length step at lines 296-297 promise: the result equals the reference formatter, so no separator falls inside a glyph and the c-th separator follows the c-th glyph |
| Layout.Estimate | printable_binary.c:289 | no contract; it is the size estimate n + n/g + n/(g*k), shown sufficient by `Layout.FormatWithinEstimate` |
| Layout.FormatOnlyInsertsSeparators | printable_binary.c:286-318 | with spaces and line feeds removed, the formatted text is the input, and text without them comes back unchanged |
| Layout.CleanUndoesFormat | printable_binary.c:286-318 | cleaning formatted text is cleaning the input |
| Layout.FormatEnds | printable_binary.c:308-314 | the formatted text starts with the first input byte and ends with the last: nothing is inserted after the last character |
| Layout.FormatNewlines | printable_binary.c:308-314 | for input without line feeds, every line feed in the output comes right after a space |
| Layout.FormatFromLength | printable_binary.c:286-318 | the rest of the output is at least the rest of the input, and stays within the estimate minus what was already written |
| Layout.FormatWithinEstimate | printable_binary.c:289-290 | the formatted length is between the input length and n + n/g + n/(g*k) |
| Layout.FormattedRoundTrip | printable_binary.c:286-318 | decoding the cleaned, formatted encoding of any input gives it back |
| Layout.FormatExample | printable_binary.c:286-318 | with groups of 1 and 2 groups per line, "abc" becomes "a b \nc" |
| BufferedLayout.CleanDecodeInput | printable_binary.c:369-383 | the loop writes exactly the cleaned text into a buffer of the input's size without overflow |
| BufferedLayout.Spacing | printable_binary.c:307-314 | the nested spacing tests write the formatter's separator: nothing unless more input follows and the count is a multiple of g; then a space, and a line feed after it exactly when the count is a multiple of g * k |
| BufferedLayout.FormatOutput | printable_binary.c:286-318 | the formatter writes exactly the functional formatting into a buffer of the estimated size without overflow |
| BufferedLayout.FormatInto | printable_binary.c:292-315 | the character loop writes exactly the functional formatting into any empty buffer that holds it |
| BufferedLayout.FormatRoom | printable_binary.c:295-315 | the next character and its separator fit in a buffer that holds the whole formatted text |
| BufferedLayout.FormatAdvance | printable_binary.c:295-315 | one character plus its separator keeps the invariant: output so far plus the formatting of the rest is the whole formatted text |

## Left out

- File and stream I/O (`read_file`, writing the output), the standard-input and terminal checks, and stderr diagnostics: the model works on byte sequences.
- Command-line parsing, `print_usage` and `main`'s mode dispatch: they only select which operation runs. The formatter requires a group size N and a groups-per-line count M above zero. In the C code a zero divides by zero. A negative value passes the `sscanf` at line 460 and is converted to a huge `size_t` at lines 289, 308 and 311: a negative N gives no separators at all, and a negative M gives spaces but no line feeds. Neither case is modelled.
- The disassembly modes: they run external tools through a shell, and their only codec use is the encode table lookup, which is modelled.
- `buffer_free`, allocation failure and the exit paths: a buffer is a value. The overflow exit is the `None` of `Buffers.Append`, and every loop proves it never happens.
- Machine integer widths in the formatter: `group_size * groups_per_line` could overflow `int`, and `size_t` could wrap. The model uses unbounded integers.
- BufferedLayout.FormatInto: appends a character's bytes as one slice rather than byte by byte, appends the separator as one append of up to two bytes where the C code appends the space and the line feed one at a time (lines 309 and 312), and uses the end position cut at the input's end where the C code lets `i` run past it; each writes the same bytes into a buffer proved to have room, and the cut end makes the same "more input follows" test.

=== FILE: arith.dfy ===
/** Facts about Euclidean division on naturals used to bound the formatter's output. */
module Arith {

  lemma MulAtLeast(a: nat, b: nat)
    requires a > 0 && b > 0
    ensures a * b >= b
  {
  }

  /** A quotient by a positive number lies between 0 and the dividend. */
  lemma DivBounds(n: nat, m: nat)
    requires m > 0
    ensures 0 <= n / m <= n
  {
    if n / m > n {
      MulAtLeast(m, n / m);
    }
  }

  /** Euclidean division is determined by any quotient and remainder in range. */
  lemma DivUnique(a: nat, m: nat, q: nat, r: nat)
    requires m > 0 && r < m && a == q * m + r
    ensures a / m == q && a % m == r
  {
    var q' := a / m;
    if q' > q {
      MulAtLeast(q' - q, m);
    } else if q' < q {
      MulAtLeast(q - q', m);
    }
  }

  /** Division by a positive number is monotone. */
  lemma DivMonotone(a: nat, b: nat, m: nat)
    requires m > 0 && a <= b
    ensures a / m <= b / m
  {
    var qa := a / m;
    var qb := b / m;
    if qa > qb {
      MulAtLeast(qa - qb, m);
    }
  }

  /** One more unit raises a quotient by one exactly when it completes a multiple. */
  lemma DivStep(c: nat, m: nat)
    requires m > 0
    ensures (c + 1) / m == c / m + (if (c + 1) % m == 0 then 1 else 0)
  {
    var q := c / m;
    var r := c % m;
    if r + 1 < m {
      DivUnique(c + 1, m, q, r + 1);
    } else {
      DivUnique(c + 1, m, q + 1, 0);
    }
  }

  /** A multiple of `g` whose quotient is a multiple of `k` is a multiple of `g * k`. */
  lemma NestedMultiple(c: nat, g: nat, k: nat)
    requires g > 0 && k > 0 && c % g == 0 && (c / g) % k == 0
    ensures g * k > 0 && c % (g * k) == 0
  {
    MulAtLeast(g, k);
    var t := (c / g) / k;
    assert c == t * (g * k);
    DivUnique(c, g * k, t, 0);
  }

  /** Conversely, a multiple of `g * k` is a multiple of `g` whose quotient is a multiple
      of `k`. */
  lemma ProductMultiple(c: nat, g: nat, k: nat)
    requires g > 0 && k > 0
    requires g * k > 0 && c % (g * k) == 0
    ensures c % g == 0 && (c / g) % k == 0
  {
    var t := c / (g * k);
    assert c == t * (g * k);
    assert c == (t * k) * g;
    DivUnique(c, g, t * k, 0);
    DivUnique(t * k, k, t, 0);
  }
}

=== FILE: buffered_codec.dfy ===
/** The C routines `encode_data` and `decode_data` as loops over pre-sized output buffers,
    each proved to compute the functional Encode and Decode without ever overflowing. */
module BufferedCodec {
  import opened Bytes
  import opened Utf8
  import opened CodeTable
  import opened Buffers
  import opened Codec

  /** The encoder's loop over a buffer pre-sized to three times the input: it appends each
      entry (never empty, by `EncodeTableTotal`, so the C code's emptiness guard is left out)
      and never outgrows the buffer. */
  method EncodeData(input: seq<byte>) returns (output: Buffer)
    ensures output.data == Encode(input)
    ensures |output.data| <= output.capacity
    ensures input != [] ==> output.capacity == 3 * |input|
    ensures input == [] ==> output.capacity == InitialBufferSize
  {
    output := BufferInit(3 * |input|);
    var i := 0;
    while i < |input|
      invariant 0 <= i <= |input|
      invariant output.data == Encode(input[..i])
      invariant output.capacity == (if input == [] then InitialBufferSize else 3 * |input|)
    {
      var entry := Glyph(input[i]);
      EncodeRoom(input, i, output.data, entry);
      ghost var out := output.data;
      output := Append(output, entry).value;
      EncodeAdvance(input, i, out, entry, output.data);
      i := i + 1;
    }
    assert input[..i] == input;
  }

  /** Before appending the glyph of `input[i]`, the buffer of `3 * |input|` bytes has room for it. */
  lemma EncodeRoom(input: seq<byte>, i: nat, out: seq<byte>, entry: seq<byte>)
    requires i < |input| && out == Encode(input[..i]) && entry == Glyph(input[i])
    ensures |out| + |entry| <= 3 * |input|
  {
    EncodeTableTotal(input[i]);
  }

  /** Appending the glyph of `input[i]` to the encoding of `input[..i]` encodes `input[..i + 1]`. */
  lemma EncodeAdvance(input: seq<byte>, i: nat, out: seq<byte>, entry: seq<byte>, out': seq<byte>)
    requires i < |input| && out == Encode(input[..i]) && entry == Glyph(input[i])
    requires |out'| == |out| + |entry| && out'[..|out|] == out && out'[|out|..] == entry
    ensures out' == Encode(input[..i + 1])
  {
    assert out' == out + entry;
    EncodeSnoc(input, i);
  }

  /** The inner loop of the decoder at position `i`: lengths `seqLen`, `seqLen - 1`, ... are
      tried while they lie in 1..3, and the first valid slot wins. */
  method TryLengths(input: seq<byte>, i: nat, seqLen: nat) returns (found: Option<(byte, nat)>)
    requires i < |input|
    ensures found == Match(input[i..], seqLen)
  {
    var rest := input[i..];
    var len := seqLen;
    while len >= 1 && len <= 3
      invariant 0 <= len <= seqLen
      invariant Match(rest, seqLen) == Match(rest, len)
      decreases len
    {
      if i + len <= |input| {
        assert input[i..i + len] == rest[..len];
        var hash := Hash(input[i..i + len]);
        if DecodeSlot(hash).Some? {
          return Some((DecodeSlot(hash).value, len));
        }
      }
      len := len - 1;
    }
    return None;
  }

  /** The decoder's step at position `i` of the input: the byte it emits (if any) followed by
      the decoding from the resume position is the decoding from `i`. */
  lemma DecodeStepAt(input: seq<byte>, i: nat, found: Option<(byte, nat)>, emit: seq<byte>,
                     step: nat, i': nat)
    requires i < |input| && found == Match(input[i..], FirstTry(input[i..]))
    requires emit == (if found.Some? then [found.value.0] else [])
    requires step == (if found.Some? then found.value.1 else 1)
    requires i' == i + step
    ensures 1 <= step && i' <= |input| && |emit| <= step
    ensures Decode(input[i..]) == emit + Decode(input[i'..])
  {
    var rest := input[i..];
    DecodeStep(rest);
    MatchIsFirstHit(rest, FirstTry(rest));
    assert rest[step..] == input[i'..];
  }

  /** One pass of the decoder's outer loop keeps its bookkeeping: a hit emits its byte and
      moves past its slice, a miss emits nothing and moves one byte; either way what is emitted
      so far, followed by the decoding of what is left, is the decoding of the whole input, and
      the output never gets ahead of the input position. */
  lemma DecodeAdvance(input: seq<byte>, i: nat, out: seq<byte>, found: Option<(byte, nat)>,
                      emit: seq<byte>, step: nat, out': seq<byte>, i': nat)
    requires i < |input| && |out| <= i && out + Decode(input[i..]) == Decode(input)
    requires found == Match(input[i..], FirstTry(input[i..]))
    requires emit == (if found.Some? then [found.value.0] else [])
    requires step == (if found.Some? then found.value.1 else 1)
    requires out' == out + emit && i' == i + step
    ensures i < i' <= |input| && |out'| <= i'
    ensures out' + Decode(input[i'..]) == Decode(input)
  {
    DecodeStepAt(input, i, found, emit, step, i');
    Regroup(out, Decode(input[i..]), emit, Decode(input[i'..]), Decode(input), out');
  }

  /** The decoder's loop over a buffer sized to the input: at each position the announced
      length is cut to the bytes left, the lengths are tried downwards, and one byte is skipped
      when nothing matches. */
  method DecodeData(input: seq<byte>) returns (output: Buffer)
    ensures output.data == Decode(input)
    ensures |output.data| <= output.capacity
    ensures input != [] ==> output.capacity == |input|
  {
    output := BufferInit(|input|);
    var i := 0;
    while i < |input|
      invariant 0 <= i <= |input|
      invariant |output.data| <= i
      invariant output.data + Decode(input[i..]) == Decode(input)
      invariant output.capacity == (if input == [] then InitialBufferSize else |input|)
    {
      var seqLen := SeqLen(input[i]);
      if i + seqLen > |input| {
        seqLen := |input| - i;
      }
      assert seqLen == FirstTry(input[i..]);
      var found := TryLengths(input, i, seqLen);
      var emit: seq<byte>, step: nat;
      if found.Some? {
        emit, step := [found.value.0], found.value.1;
      } else {
        emit, step := [], 1;
      }
      ghost var (out, at) := (output.data, i);
      output := Append(output, emit).value;
      i := i + step;
      DecodeAdvance(input, at, out, found, emit, step, output.data, i);
    }
    assert input[|input|..] == [];
  }
}

=== FILE: buffered_layout.dfy ===
/** The C routines `format_output` and `clean_decode_input` as loops over pre-sized output
    buffers, each proved to compute the functional Format and Clean without overflowing. */
module BufferedLayout {
  import opened Bytes
  import opened Utf8
  import opened Buffers
  import opened Layout

  /** The cleaner's loop: every byte that is not layout is appended, into a buffer the size of
      the input. */
  method CleanDecodeInput(input: seq<byte>) returns (output: Buffer)
    ensures output.data == Clean(input)
    ensures input != [] ==> output.capacity == |input|
  {
    output := BufferInit(|input|);
    var i := 0;
    while i < |input|
      invariant 0 <= i <= |input|
      invariant output.data == Clean(input[..i]) && |output.data| <= i
      invariant output.capacity == (if input == [] then InitialBufferSize else |input|)
    {
      var c := input[i];
      FilterConcat(input[..i], [c], IsLayout);
      assert input[..i + 1] == input[..i] + [c];
      assert [c][1..] == [];
      if c != Space && c != Tab && c != Newline && c != CarriageReturn {
        output := AppendByte(output, c).value;
      }
      i := i + 1;
    }
    assert input[..i] == input;
  }

  /** Room for one more character of formatted output and its separator: what is written so
      far plus both fits within the whole formatted text. */
  lemma FormatRoom(x: seq<byte>, g: nat, k: nat, at: nat, count: nat, out: seq<byte>)
    requires g > 0 && k > 0 && at < |x|
    requires out + FormatFrom(x, g, k, at, count) == Format(x, g, k)
    ensures |out| + |x[at..CharEnd(x, at)]| + |Sep(count + 1, g, k, CharEnd(x, at) < |x|)|
      <= |Format(x, g, k)|
  {
  }

  /** One pass of the formatter's loop keeps its bookkeeping: what is written so far,
      followed by the formatting of the rest, is the whole formatted text. */
  lemma FormatAdvance(x: seq<byte>, g: nat, k: nat, at: nat, count: nat, out: seq<byte>,
                      next: nat, count': nat, chunk: seq<byte>, sep: seq<byte>, out': seq<byte>)
    requires g > 0 && k > 0 && at < |x|
    requires out + FormatFrom(x, g, k, at, count) == Format(x, g, k)
    requires next == CharEnd(x, at) && count' == count + 1
    requires chunk == x[at..next] && sep == Sep(count', g, k, next < |x|)
    requires out' == (out + chunk) + sep
    ensures out' + FormatFrom(x, g, k, next, count') == Format(x, g, k)
  {
    var rest := FormatFrom(x, g, k, next, count');
    ConcatAssoc(out, chunk, sep);
    ConcatAssoc(out, chunk + sep, rest);
  }

  /** The spacing the formatter appends after its `count`-th character: a space when a group
      is complete and more input follows, then a line feed when that group also completes a
      line. */
  method Spacing(count: nat, g: nat, k: nat, more: bool) returns (sep: seq<byte>)
    requires g > 0 && k > 0
    ensures sep == Sep(count, g, k, more)
    ensures |sep| <= 2 && (sep != [] <==> more && count % g == 0)
    ensures sep != [] ==> sep[0] == Space && (|sep| == 2 <==> count % (g * k) == 0)
  {
    sep := [];
    if count % g == 0 && more {
      sep := sep + [Space];
      if (count / g) % k == 0 && more {
        sep := sep + [Newline];
      }
    }
    SepRule(count, g, k, more);
  }

  /** The formatter's loop over a buffer of the estimated size: each character is copied
      whole (cut at the end of the input), then a space closes every group and a line feed
      every line of groups, but only while more input follows. */
  method FormatOutput(input: seq<byte>, g: nat, k: nat) returns (output: Buffer)
    requires g > 0 && k > 0
    ensures output.data == Format(input, g, k)
    ensures input != [] ==> output.capacity == Estimate(|input|, g, k)
  {
    FormatWithinEstimate(input, g, k);
    output := BufferInit(Estimate(|input|, g, k));
    output := FormatInto(input, g, k, output);
  }

  /** The loop of the formatter, into an empty buffer with room for the whole formatted text. */
  method FormatInto(input: seq<byte>, g: nat, k: nat, start: Buffer) returns (output: Buffer)
    requires g > 0 && k > 0
    requires start.data == [] && |Format(input, g, k)| <= start.capacity
    ensures output.data == Format(input, g, k) && output.capacity == start.capacity
  {
    output := start;
    var count := 0;
    var i := 0;
    ghost var pos := 0;
    while i < |input|
      invariant pos <= |input| && pos == (if i < |input| then i else |input|)
      invariant output.data + FormatFrom(input, g, k, pos, count) == Format(input, g, k)
      invariant output.capacity == start.capacity
    {
      var charLen := SeqLen(input[i]);
      var end := if i + charLen < |input| then i + charLen else |input|;
      assert end == CharEnd(input, pos);
      FormatRoom(input, g, k, pos, count, output.data);
      ghost var (out, before) := (output.data, count);
      var chunk := input[i..end];
      output := Append(output, chunk).value;
      count := count + 1;
      i := i + charLen;
      assert (i < |input|) == (end < |input|);
      var sep := Spacing(count, g, k, i < |input|);
      output := Append(output, sep).value;
      FormatAdvance(input, g, k, pos, before, out, end, count, chunk, sep, output.data);
      pos := end;
    }
  }
}

=== FILE: buffers.dfy ===
/** The pre-sized output buffers of the C code, reduced to contents and capacity. The buffers
    never grow: an append past the capacity ends the C process, which is the None case here,
    so every operation that uses a buffer proves it never reaches that case. */
module Buffers {
  import opened Bytes

  /** Capacity used when a buffer is requested with capacity 0. */
  const InitialBufferSize: nat := 8192

  datatype Buffer = Buffer(data: seq<byte>, capacity: nat)

  /** A fresh, empty buffer; a requested capacity of 0 falls back to the default size. */
  function BufferInit(capacity: nat): (b: Buffer)
    ensures b.data == [] && b.capacity > 0
    ensures capacity > 0 ==> b.capacity == capacity
    ensures capacity == 0 ==> b.capacity == InitialBufferSize
  {
    Buffer([], if capacity == 0 then InitialBufferSize else capacity)
  }

  /** Appending succeeds exactly when the bytes fit in the remaining capacity; it then adds
      them at the end and leaves the capacity alone. None stands for the overflow exit. */
  function Append(buf: Buffer, bytes: seq<byte>): (r: Option<Buffer>)
    ensures r.Some? <==> |buf.data| + |bytes| <= buf.capacity
    ensures r.Some? ==> |r.value.data| == |buf.data| + |bytes| && r.value.capacity == buf.capacity
    ensures r.Some? ==> r.value.data[..|buf.data|] == buf.data && r.value.data[|buf.data|..] == bytes
  {
    if |buf.data| + |bytes| > buf.capacity then None
    else Some(Buffer(buf.data + bytes, buf.capacity))
  }

  /** Appending one byte. */
  function AppendByte(buf: Buffer, c: byte): (r: Option<Buffer>)
    ensures r.Some? <==> |buf.data| < buf.capacity
    ensures r.Some? ==> r.value.data == buf.data + [c] && r.value.capacity == buf.capacity
  {
    Append(buf, [c])
  }
}

=== FILE: bytes.dfy ===
/** Bytes and the small option type shared by every part of the codec. */
module Bytes {

  /** An unsigned 8-bit value, as the C code's `uint8_t`. */
  type byte = x: int | 0 <= x < 0x100

  /** A lookup that may miss. */
  datatype Option<+T> = None | Some(value: T)

  /** The four layout bytes the decoder's input cleaner drops:
      space, horizontal tab, line feed and carriage return. */
  predicate IsLayout(c: byte) {
    c == Space || c == Tab || c == Newline || c == CarriageReturn
  }

  const Space: byte := 0x20
  const Tab: byte := 0x09
  const Newline: byte := 0x0A
  const CarriageReturn: byte := 0x0D

  /** Concatenation regroups freely. */
  lemma ConcatAssoc<T>(a: seq<T>, b: seq<T>, c: seq<T>)
    ensures (a + b) + c == a + (b + c)
  {
  }

  /** Moving a piece from the front of the rest onto the end of the prefix keeps the whole. */
  lemma Regroup<T>(out: seq<T>, d: seq<T>, emit: seq<T>, tail: seq<T>, whole: seq<T>, out': seq<T>)
    requires out + d == whole && d == emit + tail && out' == out + emit
    ensures out' + tail == whole
  {
    ConcatAssoc(out, emit, tail);
  }
}

=== FILE: code_table.dfy ===
/** The fixed code table: the byte-to-glyph map built at start-up and the hash-indexed
    decode table derived from it. */
module CodeTable {
  import opened Bytes
  import opened Utf8

  /** The hand-picked glyphs (contents of the C string literals, without their NUL):
      control bytes, space, the shell-unsafe printable punctuation, DEL, and two bytes of the
      0x80..0xBF range that are moved away from the systematic rule. Written as three slices
      of the one array so that each lookup walks a short case list. */
  function Special(i: byte): (r: Option<seq<byte>>)
  {
    if i < 0x20 then SpecialControl(i)
    else if i < 0x80 then SpecialAscii(i)
    else SpecialHigh(i)
  }

  function SpecialControl(i: byte): Option<seq<byte>> {
    match i
    case 0 => Some([0xE2, 0x88, 0x85])
    case 1 => Some([0xC2, 0xAF])
    case 2 => Some([0xC2, 0xAB])
    case 3 => Some([0xC2, 0xBB])
    case 4 => Some([0xCF, 0x9E])
    case 5 => Some([0xC2, 0xBF])
    case 6 => Some([0xC2, 0xA1])
    case 7 => Some([0xC2, 0xAA])
    case 8 => Some([0xE2, 0x8C, 0xAB])
    case 9 => Some([0xE2, 0x87, 0xA5])
    case 10 => Some([0xE2, 0x87, 0xA9])
    case 11 => Some([0xE2, 0x8A, 0xA7])
    case 12 => Some([0xC2, 0xA7])
    case 13 => Some([0xE2, 0x8F, 0x8E])
    case 14 => Some([0xC8, 0xAF])
    case 15 => Some([0xCA, 0x98])
    case 16 => Some([0xC6, 0x94])
    case 17 => Some([0xC2, 0xB9])
    case 18 => Some([0xC2, 0xB2])
    case 19 => Some([0xC2, 0xBA])
    case 20 => Some([0xC2, 0xB3])
    case 21 => Some([0xC2, 0xB5])
    case 22 => Some([0xC9, 0xA8])
    case 23 => Some([0xC2, 0xAC])
    case 24 => Some([0xC2, 0xA9])
    case 25 => Some([0xC2, 0xA6])
    case 26 => Some([0xC6, 0xB5])
    case 27 => Some([0xE2, 0x8E, 0x8B])
    case 28 => Some([0xCE, 0x9E])
    case 29 => Some([0xC7, 0x81])
    case 30 => Some([0xC7, 0x80])
    case 31 => Some([0xC2, 0xB6])
    case _ => None
  }

  function SpecialAscii(i: byte): Option<seq<byte>> {
    match i
    case 32 => Some([0xE2, 0x90, 0xA3])
    case 33 => Some([0xEF, 0xB9, 0x97])
    case 34 => Some([0xCB, 0xB5])
    case 35 => Some([0xE2, 0x99, 0xAF])
    case 36 => Some([0xEF, 0xB9, 0xA9])
    case 37 => Some([0xEF, 0xB9, 0xAA])
    case 38 => Some([0xEF, 0xB9, 0xA0])
    case 39 => Some([0xCA, 0xBC])
    case 40 => Some([0xE2, 0x9D, 0xA8])
    case 41 => Some([0xE2, 0x9D, 0xA9])
    case 42 => Some([0xEF, 0xB9, 0xA1])
    case 43 => Some([0xEF, 0xB9, 0xA2])
    case 45 => Some([0xEF, 0xB9, 0xA3])
    case 47 => Some([0xE2, 0x81, 0x84])
    case 58 => Some([0xEF, 0xB9, 0x95])
    case 59 => Some([0xEF, 0xB9, 0x94])
    case 61 => Some([0xEF, 0xB9, 0xA6])
    case 63 => Some([0xEF, 0xB9, 0x96])
    case 64 => Some([0xEF, 0xB9, 0xAB])
    case 91 => Some([0xE2, 0x9F, 0xA6])
    case 92 => Some([0xE2, 0xA7, 0xB9])
    case 93 => Some([0xE2, 0x9F, 0xA7])
    case 96 => Some([0xCB, 0x8B])
    case 123 => Some([0xE2, 0x9D, 0xB4])
    case 124 => Some([0xE2, 0x88, 0xA3])
    case 125 => Some([0xE2, 0x9D, 0xB5])
    case 126 => Some([0xCB, 0x9C])
    case 127 => Some([0xE2, 0x8C, 0xA6])
    case _ => None
  }

  function SpecialHigh(i: byte): Option<seq<byte>> {
    match i
    case 152 => Some([0xC5, 0x8C])
    case 184 => Some([0xC5, 0x8F])
    case _ => None
  }

  /** The printable ASCII bytes that carry a hand-picked glyph instead of themselves,
      listed by hand as an independent reference for the shape lemmas. */
  const OverriddenAscii: set<byte> :=
    {0x21, 0x22, 0x23, 0x24, 0x25, 0x26, 0x27, 0x28, 0x29, 0x2A, 0x2B, 0x2D, 0x2F, 0x3A, 0x3B, 0x3D, 0x3F, 0x40, 0x5B, 0x5C, 0x5D, 0x60, 0x7B, 0x7C, 0x7D, 0x7E}

  /** The encode table entry of byte `i`: the override when there is one, else the byte itself
      for 0x21..0x7E, else C3 i for 0x80..0xBF, else C4 (i - 0x40) for 0xC0..0xFF; a byte none
      of the branches reaches would keep the zero-length entry of the zeroed table. */
  function Glyph(i: byte): (g: seq<byte>)
    ensures |g| <= MaxUtf8Bytes
  {
    match Special(i)
    case Some(lit) =>
      SpecialWellFormed(i);
      MakeUtf8(lit + [0])
    case None =>
      if 33 <= i <= 126 then MakeUtf8([i, 0])
      else if 128 <= i < 192 && i != 152 && i != 184 then MakeUtf8([0xC3, i, 0])
      else if i >= 192 && i != 184 then MakeUtf8([0xC4, i - 192 + 128, 0])
      else []
  }

  /** The inverse of the table, written independently of the construction loop: the byte whose
      glyph hashes to `h`, or None when no glyph does. Split by the hash ranges of the glyph
      classes: one-byte glyphs, E2 glyphs (0x2000..0x2FFF), two-byte glyphs (0xC200..0xCFFF)
      and EF glyphs (0xF000..0xFFFF). */
  function Unhash(h: nat): Option<byte> {
    if h < 0x100 then
      if 33 <= h <= 126 && h !in OverriddenAscii then Some(h) else None
    else if h < 0xC000 then UnhashE2(h)
    else if h < 0xF000 then UnhashTwoByte(h)
    else UnhashEF(h)
  }

  function UnhashE2(h: nat): Option<byte> {
    match h
    case 0x2044 => Some(47)
    case 0x21E5 => Some(9)
    case 0x21E9 => Some(10)
    case 0x2205 => Some(0)
    case 0x2223 => Some(124)
    case 0x22A7 => Some(11)
    case 0x2326 => Some(127)
    case 0x232B => Some(8)
    case 0x238B => Some(27)
    case 0x23CE => Some(13)
    case 0x2423 => Some(32)
    case 0x266F => Some(35)
    case 0x2768 => Some(40)
    case 0x2769 => Some(41)
    case 0x2774 => Some(123)
    case 0x2775 => Some(125)
    case 0x27E6 => Some(91)
    case 0x27E7 => Some(93)
    case 0x29F9 => Some(92)
    case _ => None
  }

  function UnhashTwoByte(h: nat): Option<byte> {
    match h
    case 0xC2A1 => Some(6)
    case 0xC2A6 => Some(25)
    case 0xC2A7 => Some(12)
    case 0xC2A9 => Some(24)
    case 0xC2AA => Some(7)
    case 0xC2AB => Some(2)
    case 0xC2AC => Some(23)
    case 0xC2AF => Some(1)
    case 0xC2B2 => Some(18)
    case 0xC2B3 => Some(20)
    case 0xC2B5 => Some(21)
    case 0xC2B6 => Some(31)
    case 0xC2B9 => Some(17)
    case 0xC2BA => Some(19)
    case 0xC2BB => Some(3)
    case 0xC2BF => Some(5)
    case 0xC58C => Some(152)
    case 0xC58F => Some(184)
    case 0xC694 => Some(16)
    case 0xC6B5 => Some(26)
    case 0xC780 => Some(30)
    case 0xC781 => Some(29)
    case 0xC8AF => Some(14)
    case 0xC9A8 => Some(22)
    case 0xCA98 => Some(15)
    case 0xCABC => Some(39)
    case 0xCB8B => Some(96)
    case 0xCB9C => Some(126)
    case 0xCBB5 => Some(34)
    case 0xCE9E => Some(28)
    case 0xCF9E => Some(4)
    case _ =>
      if 0xC380 <= h <= 0xC3BF && h != 0xC398 && h != 0xC3B8 then Some(h - 0xC300)
      else if 0xC480 <= h <= 0xC4BF then Some(h - 0xC400 + 64)
      else None
  }

  function UnhashEF(h: nat): Option<byte> {
    match h
    case 0xFE54 => Some(59)
    case 0xFE55 => Some(58)
    case 0xFE56 => Some(63)
    case 0xFE57 => Some(33)
    case 0xFE60 => Some(38)
    case 0xFE61 => Some(42)
    case 0xFE62 => Some(43)
    case 0xFE63 => Some(45)
    case 0xFE66 => Some(61)
    case 0xFE69 => Some(36)
    case 0xFE6A => Some(37)
    case 0xFE6B => Some(64)
    case _ => None
  }

  /** Every override literal is two or three bytes long and holds no NUL. */
  lemma SpecialWellFormed(i: byte)
    ensures Special(i).Some? ==>
      2 <= |Special(i).value| <= 3 && forall j :: 0 <= j < |Special(i).value| ==> Special(i).value[j] != 0
  {
  }

  /** The shape facts the codec relies on for a glyph `g` assigned to byte `i`:
      one to three bytes; the lead byte announces the glyph's own length; a one-byte glyph is
      the byte itself; a longer one starts with a lead byte in C2..EF followed by continuation
      bytes; no layout byte anywhere; and the hash of `g` leads back to `i`. */
  predicate ShapeOk(i: byte, g: seq<byte>) {
    && 1 <= |g| <= 3
    && SeqLen(g[0]) == |g|
    && (|g| == 1 ==> g[0] == i)
    && (|g| > 1 ==> 0xC2 <= g[0] <= 0xEF && 0x80 <= g[1] <= 0xBF)
    && (|g| > 2 ==> 0x80 <= g[2] <= 0xBF)
    && !IsLayout(g[0])
    && Unhash(Hash(g)) == Some(i)
  }

  /** Every hand-picked glyph is well shaped; checked entry by entry, in slices of the table. */
  lemma SpecialShaped(i: byte)
    requires Special(i).Some?
    ensures ShapeOk(i, Special(i).value)
  {
    if i < 8 { SpecialShapedIn0To8(i); }
    else if i < 16 { SpecialShapedIn8To16(i); }
    else if i < 24 { SpecialShapedIn16To24(i); }
    else if i < 32 { SpecialShapedIn24To32(i); }
    else if i < 40 { SpecialShapedIn32To40(i); }
    else if i < 48 { SpecialShapedIn40To48(i); }
    else if i < 64 { SpecialShapedIn48To64(i); }
    else if i < 100 { SpecialShapedIn64To100(i); }
    else { SpecialShapedIn100To256(i); }
  }

  lemma SpecialShapedIn0To8(i: byte)
    requires 0 <= i < 8 && Special(i).Some?
    ensures ShapeOk(i, Special(i).value)
  {
  }

  lemma SpecialShapedIn8To16(i: byte)
    requires 8 <= i < 16 && Special(i).Some?
    ensures ShapeOk(i, Special(i).value)
  {
  }

  lemma SpecialShapedIn16To24(i: byte)
    requires 16 <= i < 24 && Special(i).Some?
    ensures ShapeOk(i, Special(i).value)
  {
  }

  lemma SpecialShapedIn24To32(i: byte)
    requires 24 <= i < 32 && Special(i).Some?
    ensures ShapeOk(i, Special(i).value)
  {
  }

  lemma SpecialShapedIn32To40(i: byte)
    requires 32 <= i < 40 && Special(i).Some?
    ensures ShapeOk(i, Special(i).value)
  {
  }

  lemma SpecialShapedIn40To48(i: byte)
    requires 40 <= i < 48 && Special(i).Some?
    ensures ShapeOk(i, Special(i).value)
  {
  }

  lemma SpecialShapedIn48To64(i: byte)
    requires 48 <= i < 64 && Special(i).Some?
    ensures ShapeOk(i, Special(i).value)
  {
  }

  lemma SpecialShapedIn64To100(i: byte)
    requires 64 <= i < 100 && Special(i).Some?
    ensures ShapeOk(i, Special(i).value)
  {
  }

  lemma SpecialShapedIn100To256(i: byte)
    requires 100 <= i < 256 && Special(i).Some?
    ensures ShapeOk(i, Special(i).value)
  {
  }

  /** Every entry of the encode table is well shaped. */
  lemma GlyphWellShaped(i: byte)
    ensures ShapeOk(i, Glyph(i))
  {
    if Special(i).Some? {
      SpecialShaped(i);
      SpecialWellFormed(i);
      MakeUtf8OfLiteral(Special(i).value);
    }
  }

  /** A glyph's lead byte announces the glyph's own length, so a reader that steps by
      announced lengths steps from glyph to glyph. */
  lemma GlyphAnnouncesLength(i: byte)
    ensures 1 <= |Glyph(i)| && SeqLen(Glyph(i)[0]) == |Glyph(i)|
  {
    GlyphWellShaped(i);
  }

  /** A table entry built from a NUL-free literal holds exactly that literal. */
  lemma MakeUtf8OfLiteral(lit: seq<byte>)
    requires |lit| <= MaxUtf8Bytes && forall j :: 0 <= j < |lit| ==> lit[j] != 0
    ensures MakeUtf8(lit + [0]) == lit
  {
  }

  /** Totality: every byte gets a glyph of one to three bytes, so the guard on the entry length
      in the encoder never drops a byte and the decode-table loop never skips an entry. */
  lemma EncodeTableTotal(i: byte)
    ensures 1 <= |Glyph(i)| <= 3
  {
    GlyphWellShaped(i);
  }

  /** A one-byte glyph exists exactly for printable ASCII other than the overridden
      punctuation, and it is the byte itself. */
  lemma OneByteGlyphs(i: byte)
    ensures |Glyph(i)| == 1 <==> 0x21 <= i <= 0x7E && i !in OverriddenAscii
    ensures |Glyph(i)| == 1 ==> Glyph(i) == [i]
  {
    GlyphWellShaped(i);
    if 0x21 <= i <= 0x7E && i !in OverriddenAscii {
      assert Special(i).None?;
    }
  }

  /** A multi-byte glyph is a lead byte of C2..EF announcing the glyph's length, followed by
      continuation bytes. */
  lemma MultiByteGlyphs(i: byte)
    ensures |Glyph(i)| > 1 ==>
      && 0xC2 <= Glyph(i)[0] <= 0xEF
      && SeqLen(Glyph(i)[0]) == |Glyph(i)|
      && forall j :: 1 <= j < |Glyph(i)| ==> 0x80 <= Glyph(i)[j] <= 0xBF
  {
    GlyphWellShaped(i);
  }

  /** No glyph contains a space, tab, line feed or carriage return. */
  lemma GlyphHasNoLayout(i: byte)
    ensures forall j :: 0 <= j < |Glyph(i)| ==> !IsLayout(Glyph(i)[j])
  {
    GlyphWellShaped(i);
  }

  /** The systematic rule for the upper half: C3 i for 0x80..0xBF and C4 (i - 0x40) for
      0xC0..0xFF, except the two overridden bytes 0x98 and 0xB8. */
  lemma SystematicGlyphs(i: byte)
    ensures 0x80 <= i <= 0xBF && i != 0x98 && i != 0xB8 ==> Glyph(i) == [0xC3, i]
    ensures 0xC0 <= i ==> Glyph(i) == [0xC4, i - 0x40]
  {
    if 0x80 <= i <= 0xBF && i != 0x98 && i != 0xB8 {
      MakeUtf8OfLiteral([0xC3, i]);
    } else if 0xC0 <= i {
      MakeUtf8OfLiteral([0xC4, i - 0x40]);
    }
  }

  /** The hash is injective on the 256 glyphs (and so are the glyphs themselves). */
  lemma GlyphHashInjective(a: byte, b: byte)
    ensures Hash(Glyph(a)) == Hash(Glyph(b)) ==> a == b
    ensures Glyph(a) == Glyph(b) ==> a == b
  {
    GlyphWellShaped(a);
    GlyphWellShaped(b);
  }

  /** The decode slot `h` after the first `n` iterations of the construction loop, which
      writes entry `i` into slot Hash(Glyph(i)) for i = 0, 1, ..., 255 when the entry is
      non-empty: the most recent write wins, as a silent overwrite would. */
  function SlotAfter(n: nat, h: nat): Option<byte>
    requires n <= 256
  {
    if n == 0 then None
    else if |Glyph(n - 1)| > 0 && Hash(Glyph(n - 1)) == h then Some(n - 1)
    else SlotAfter(n - 1, h)
  }

  /** The finished decode table: the valid flag and stored byte of slot `h`. */
  function DecodeSlot(h: nat): Option<byte>
    requires h < DecodeMapSize
  {
    SlotAfter(256, h)
  }

  /** Once entry `i` is written, no later iteration overwrites its slot. */
  lemma {:induction false} SlotKeepsEntry(n: nat, i: byte)
    requires i < n <= 256
    ensures SlotAfter(n, Hash(Glyph(i))) == Some(i)
  {
    EncodeTableTotal(i);
    if n - 1 != i {
      GlyphHashInjective(n - 1, i);
      SlotKeepsEntry(n - 1, i);
    }
  }

  /** A slot only ever holds a byte whose glyph hashes to it. */
  lemma {:induction false} SlotHoldsPreimage(n: nat, h: nat, i: byte)
    requires n <= 256
    requires SlotAfter(n, h) == Some(i)
    ensures i < n && Hash(Glyph(i)) == h
  {
    if n > 0 && !(|Glyph(n - 1)| > 0 && Hash(Glyph(n - 1)) == h) {
      SlotHoldsPreimage(n - 1, h, i);
    }
  }

  /** The decode table is the exact inverse of the encode table: slot `h` is valid and holds
      `i` exactly when `h` is the hash of the glyph of `i`. */
  lemma DecodeTableExact(h: nat, i: byte)
    requires h < DecodeMapSize
    ensures DecodeSlot(h) == Some(i) <==> Hash(Glyph(i)) == h
  {
    if Hash(Glyph(i)) == h {
      SlotKeepsEntry(256, i);
    }
    if DecodeSlot(h) == Some(i) {
      SlotHoldsPreimage(256, h, i);
    }
  }

  /** Decoding the hash of any glyph gives back its byte. */
  lemma DecodeTableInverse(i: byte)
    ensures DecodeSlot(Hash(Glyph(i))) == Some(i)
  {
    DecodeTableExact(Hash(Glyph(i)), i);
  }

  /** A slot whose key is not in the inverse table is invalid. */
  lemma DecodeSlotMiss(h: nat)
    requires h < DecodeMapSize && Unhash(h).None?
    ensures DecodeSlot(h).None?
  {
    if DecodeSlot(h).Some? {
      var i := DecodeSlot(h).value;
      DecodeTableExact(h, i);
      GlyphWellShaped(i);
    }
  }

  /** Four entries of the table: the null byte; the vertical tab, whose bytes E2 8A A7 are
      those of U+22A7 (the source comment names U+21A7); the file separator 0x1C; and DEL. */
  lemma GlyphExamples()
    ensures Glyph(0x00) == [0xE2, 0x88, 0x85]
    ensures Glyph(0x0B) == [0xE2, 0x8A, 0xA7]
    ensures Glyph(0x1C) == [0xCE, 0x9E]
    ensures Glyph(0x7F) == [0xE2, 0x8C, 0xA6]
  {
    assert Special(0x00) == Some([0xE2, 0x88, 0x85]);
    assert Special(0x0B) == Some([0xE2, 0x8A, 0xA7]);
    assert Special(0x1C) == Some([0xCE, 0x9E]);
    assert Special(0x7F) == Some([0xE2, 0x8C, 0xA6]);
    OverrideGlyph(0x00);
    OverrideGlyph(0x0B);
    OverrideGlyph(0x1C);
    OverrideGlyph(0x7F);
  }

  /** A byte with an override gets exactly the override's bytes. */
  lemma OverrideGlyph(i: byte)
    requires Special(i).Some?
    ensures Glyph(i) == Special(i).value
  {
    SpecialWellFormed(i);
    MakeUtf8OfLiteral(Special(i).value);
  }
}

=== FILE: codec.dfy ===
/** Encoding bytes as concatenated glyphs, and the longest-match-first decoder that scans
    glyph text back into bytes through the hash-indexed decode table. */
module Codec {
  import opened Bytes
  import opened Utf8
  import opened CodeTable

  /** The glyphs of `x`, in input order. */
  function Encode(x: seq<byte>): (r: seq<byte>)
    ensures |x| <= |r| <= 3 * |x|
  {
    if |x| == 0 then []
    else
      EncodeTableTotal(x[0]);
      Glyph(x[0]) + Encode(x[1..])
  }

  /** Encoding distributes over concatenation. */
  lemma {:induction false} EncodeConcat(a: seq<byte>, b: seq<byte>)
    ensures Encode(a + b) == Encode(a) + Encode(b)
  {
    if |a| > 0 {
      assert (a + b)[0] == a[0] && (a + b)[1..] == a[1..] + b;
      EncodeConcat(a[1..], b);
      ConcatAssoc(Glyph(a[0]), Encode(a[1..]), Encode(b));
    } else {
      assert a + b == b;
    }
  }

  /** Encoding one more byte appends exactly that byte's glyph. */
  lemma EncodeSnoc(x: seq<byte>, i: nat)
    requires i < |x|
    ensures Encode(x[..i + 1]) == Encode(x[..i]) + Glyph(x[i])
  {
    assert x[..i + 1] == x[..i] + [x[i]];
    EncodeConcat(x[..i], [x[i]]);
    EncodeSingle(x[i]);
  }

  /** A single byte encodes to its glyph. */
  lemma EncodeSingle(c: byte)
    ensures Encode([c]) == Glyph(c)
  {
    assert [c][0] == c && [c][1..] == [];
  }

  /** Encoded text contains no space, tab, line feed or carriage return. */
  lemma {:induction false} EncodeHasNoLayout(x: seq<byte>)
    ensures forall j :: 0 <= j < |Encode(x)| ==> !IsLayout(Encode(x)[j])
  {
    if |x| > 0 {
      GlyphHasNoLayout(x[0]);
      EncodeHasNoLayout(x[1..]);
    }
  }

  /** The decoder's attempt at the front of `s` with lengths `len`, `len - 1`, ..., 1, as the
      C loop `for (len = seq_len; len >= 1 && len <= 3; len--)`: the first length whose
      slice hashes to a valid slot wins, and a starting length of 4 tries nothing at all. */
  function Match(s: seq<byte>, len: int): (r: Option<(byte, nat)>)
    decreases len
  {
    if len < 1 || len > 3 then None
    else if len <= |s| && DecodeSlot(Hash(s[..len])).Some? then
      Some((DecodeSlot(Hash(s[..len])).value, len))
    else Match(s, len - 1)
  }

  /** What the downward search finds: a hit is a length in 1..min(len, 3) whose slice has a
      valid slot, and every longer candidate that fits was a miss; no hit means every
      candidate missed, or the starting length was above 3. */
  lemma {:induction false} MatchIsFirstHit(s: seq<byte>, len: int)
    ensures Match(s, len).Some? ==>
      && 1 <= Match(s, len).value.1 <= len && Match(s, len).value.1 <= 3
      && Match(s, len).value.1 <= |s|
      && DecodeSlot(Hash(s[..Match(s, len).value.1])) == Some(Match(s, len).value.0)
      && forall l :: Match(s, len).value.1 < l <= len && l <= |s| ==> DecodeSlot(Hash(s[..l])).None?
    ensures Match(s, len).None? ==>
      len > 3 || forall l :: 1 <= l <= len && l <= |s| ==> DecodeSlot(Hash(s[..l])).None?
    decreases len
  {
    if 1 <= len <= 3 && !(len <= |s| && DecodeSlot(Hash(s[..len])).Some?) {
      MatchIsFirstHit(s, len - 1);
    }
  }

  /** The length the decoder tries first at the front of `s`: the lead byte's announced
      length, cut to what remains of the input. */
  function FirstTry(s: seq<byte>): (n: nat)
    requires |s| > 0
    ensures 1 <= n <= |s| && n <= 4
  {
    var n := SeqLen(s[0]);
    if n > |s| then |s| else n
  }

  /** The decoder: on a match emit the stored byte and move past the matched slice; on no
      match skip exactly one byte. */
  function Decode(s: seq<byte>): (r: seq<byte>)
    ensures |r| <= |s|
    decreases |s|
  {
    if |s| == 0 then []
    else
      match Match(s, FirstTry(s))
      case Some((b, l)) => [b] + Decode(s[l..])
      case None => Decode(s[1..])
  }

  /** A glyph at the front of the input decodes to its byte and the scan resumes right after
      it, whatever follows. */
  lemma DecodeGlyph(i: byte, rest: seq<byte>)
    ensures Decode(Glyph(i) + rest) == [i] + Decode(rest)
  {
    GlyphWellShaped(i);
    DecodeTableInverse(i);
    var g := Glyph(i);
    var s := g + rest;
    assert s[..|g|] == g;
    assert s[|g|..] == rest;
    assert FirstTry(s) == |g|;
  }

  /** Whenever the first slice the decoder tries hashes like the glyph of `i`, the decoder
      emits `i` and moves past that slice, whether or not the slice is the glyph itself. */
  lemma DecodeFront(s: seq<byte>, i: byte)
    requires |s| > 0 && FirstTry(s) <= 3
    requires Hash(s[..FirstTry(s)]) == Hash(Glyph(i))
    ensures Decode(s) == [i] + Decode(s[FirstTry(s)..])
  {
    DecodeTableInverse(i);
  }

  /** One step of the decoder, as the loop in the C code takes it. */
  lemma DecodeStep(s: seq<byte>)
    requires |s| > 0
    ensures Match(s, FirstTry(s)).Some? ==>
      Decode(s) == [Match(s, FirstTry(s)).value.0] + Decode(s[Match(s, FirstTry(s)).value.1..])
    ensures Match(s, FirstTry(s)).None? ==> Decode(s) == Decode(s[1..])
  {
  }

  /** Round trip: decoding the encoding of any byte sequence gives it back. */
  lemma {:induction false} RoundTrip(x: seq<byte>)
    ensures Decode(Encode(x)) == x
  {
    if |x| > 0 {
      DecodeGlyph(x[0], Encode(x[1..]));
      RoundTrip(x[1..]);
    }
  }

  /** All 256 byte values, in order. */
  function AllBytes(): (r: seq<byte>)
    ensures |r| == 256 && forall j :: 0 <= j < 256 ==> r[j] == j
  {
    seq(256, j requires 0 <= j < 256 => j as byte)
  }

  lemma RoundTripAllBytes()
    ensures Decode(Encode(AllBytes())) == AllBytes()
    ensures |Encode(AllBytes())| <= 768
  {
    RoundTrip(AllBytes());
  }

  /** 0x00 encodes to the three-byte empty-set glyph E2 88 85 and decodes back from it; DEL
      likewise through E2 8C A6. */
  lemma NullAndDeleteRoundTrip()
    ensures Encode([0x00]) == [0xE2, 0x88, 0x85] && Decode([0xE2, 0x88, 0x85]) == [0x00]
    ensures Encode([0x7F]) == [0xE2, 0x8C, 0xA6] && Decode([0xE2, 0x8C, 0xA6]) == [0x7F]
  {
    GlyphExamples();
    assert [0x00] + [] == [0x00 as byte];
    RoundTrip([0x00]);
    RoundTrip([0x7F]);
  }

  /** Bytes the decoder can only skip, because every slice looked up under them hashes to an
      invalid slot: a one-byte value that is no one-byte glyph; a continuation byte or C0/C1;
      a two-byte lead that starts no glyph (CC, CD, D0..DF); a lead of E0..FF whose
      three-byte keys (the band of its low nibble) and two-byte keys (lead * 256 + next)
      both miss every glyph (E1, E3..EB, ED, EE, F1, F3..FB, FD). */
  predicate IsStray(c: byte) {
    || (c < 0x80 && (c < 0x21 || c > 0x7E || c in OverriddenAscii))
    || 0x80 <= c <= 0xC1
    || c == 0xCC || c == 0xCD
    || 0xD0 <= c <= 0xDF
    || c == 0xE1 || 0xE3 <= c <= 0xEB || c == 0xED || c == 0xEE
    || c == 0xF1 || 0xF3 <= c <= 0xFB || c == 0xFD
  }

  /** A stray byte is dropped without disturbing what follows: every slot it can be looked up
      under is invalid, so exactly one byte is skipped and nothing is emitted. */
  lemma StrayByteDropped(c: byte, t: seq<byte>)
    requires IsStray(c)
    ensures Decode([c] + t) == Decode(t)
  {
    var s := [c] + t;
    assert s[1..] == t;
    StrayNoMatch(c, t);
    DecodeStep(s);
  }

  /** No length the decoder tries at a stray byte hits: a hit would be a slice of 1 to 3
      bytes with a valid slot, and every such slice starting with the stray byte misses. */
  lemma StrayNoMatch(c: byte, t: seq<byte>)
    requires IsStray(c)
    ensures Match([c] + t, FirstTry([c] + t)).None?
  {
    var s := [c] + t;
    MatchIsFirstHit(s, FirstTry(s));
    if Match(s, FirstTry(s)).Some? {
      var l := Match(s, FirstTry(s)).value.1;
      if l == 1 {
        assert s[..1] == [c];
        DecodeSlotMiss(Hash([c]));
      } else if l == 2 {
        assert s[..2] == [c, t[0]];
        StrayTwoByteKey(c, t[0]);
      } else {
        assert s[..3] == [c, t[0], t[1]];
        StrayThreeByteKey(c, t[0], t[1]);
      }
    }
  }

  /** Keys no glyph hashes to: above the one-byte glyphs and below the E2 band, between the
      E2 band and the first two-byte glyphs, the unused leads CC and CD, and from D0 up to
      the EF glyphs. */
  predicate NoGlyphKey(h: nat) {
    || 0x80 <= h < 0x2000
    || 0x3000 <= h < 0xC200
    || 0xCC00 <= h < 0xCE00
    || 0xD000 <= h < 0xFE00
  }

  lemma NoGlyphKeyMisses(h: nat)
    requires h < DecodeMapSize && NoGlyphKey(h)
    ensures DecodeSlot(h).None?
  {
    if h < 0xC000 {
      assert UnhashE2(h).None?;
    } else if h < 0xF000 {
      assert UnhashTwoByte(h).None?;
    } else {
      assert UnhashEF(h).None?;
    }
    DecodeSlotMiss(h);
  }

  /** The two-byte key of a stray byte of 80..FF falls in a range no glyph hashes to. */
  lemma StrayTwoByteKey(c: byte, d: byte)
    requires IsStray(c) && c >= 0x80
    ensures DecodeSlot(Hash([c, d])).None?
  {
    assert 0x8000 <= Hash([c, d]) == c * 256 + d;
    NoGlyphKeyMisses(Hash([c, d]));
  }

  /** The three-byte key of a stray lead of E0..FF falls in a band no glyph hashes to. */
  lemma StrayThreeByteKey(c: byte, d: byte, e: byte)
    requires IsStray(c) && c >= 0xE0
    ensures DecodeSlot(Hash([c, d, e])).None?
  {
    ThreeByteHashBand(c, d, e);
    var n := c % 16;
    assert n == 1 || 3 <= n <= 11 || n == 13 || n == 14;
    NoGlyphKeyMisses(Hash([c, d, e]));
  }

  /** A lead byte of F0..FF with at least three bytes after it is skipped without any lookup
      (the decoder's loop guard admits no length above 3). */
  lemma FourByteLeadSkipped(c: byte, t: seq<byte>)
    requires c >= 0xF0 && |t| >= 3
    ensures Decode([c] + t) == Decode(t)
  {
    assert ([c] + t)[1..] == t;
  }

  /** Near the end of the input the same lead byte is looked up, cut to the bytes left:
      FF B9 97 hashes like the glyph EF B9 97 of '!' and decodes to it. */
  lemma FourByteLeadNearEnd()
    ensures Decode([0xFF, 0xB9, 0x97]) == [0x21]
  {
    var s: seq<byte> := [0xFF, 0xB9, 0x97];
    MakeUtf8OfLiteral([0xEF, 0xB9, 0x97]);
    assert s[..3] == s && s[3..] == [];
    DecodeFront(s, 0x21);
  }

  lemma PrependThree(c: byte, p: byte, q: byte, g: seq<byte>)
    ensures [c, p, q] + g == [c] + ([p] + ([q] + g))
  {
  }

  /** Away from the end a lead byte of F0..FF is skipped without a lookup, so after it stray
      bytes are dropped and a glyph decodes normally; e.g. FF B9 97 41 decodes to 41 alone,
      although its first three bytes alone decode to 21. */
  lemma FourByteLeadAwayFromEnd(c: byte, p: byte, q: byte, i: byte)
    requires c >= 0xF0 && IsStray(p) && IsStray(q)
    ensures Decode([c, p, q] + Glyph(i)) == [i]
  {
    var g := Glyph(i);
    var t2 := [q] + g;
    var t1 := [p] + t2;
    EncodeTableTotal(i);
    PrependThree(c, p, q, g);
    assert g + [] == g;
    FourByteLeadSkipped(c, t1);
    StrayByteDropped(p, t2);
    StrayByteDropped(q, g);
    DecodeGlyph(i, []);
  }

  /** Matching is by hash, not by bytes: EC 8A AF is no glyph, but its hash 0xC2AF is the slot
      of the glyph C2 AF of byte 0x01, so it decodes to 0x01. */
  lemma HashCollisionDecodes()
    ensures Decode([0xEC, 0x8A, 0xAF]) == [0x01]
  {
    var s: seq<byte> := [0xEC, 0x8A, 0xAF];
    MakeUtf8OfLiteral([0xC2, 0xAF]);
    assert s[..3] == s && s[3..] == [];
    DecodeFront(s, 0x01);
  }

  /** A garbage lead byte can swallow the glyph after it: EC followed by CE 9E (the glyph of
      byte 0x1C) hashes to 0xC39E, the slot of byte 0x9E, so the result is 0x9E, not 0x1C. */
  lemma GarbageLeadAbsorbsGlyph()
    ensures Decode([0xEC, 0xCE, 0x9E]) == [0x9E]
  {
    var s: seq<byte> := [0xEC, 0xCE, 0x9E];
    SystematicGlyphs(0x9E);
    assert s[..3] == s && s[3..] == [];
    DecodeFront(s, 0x9E);
  }

  /** A lead byte of F0..FF within three bytes of the end is looked up with the bytes after
      it, so it too can swallow a glyph: FC CE 9E decodes to 0x9E like EC CE 9E above. */
  lemma FourByteLeadAbsorbsGlyph()
    ensures Decode([0xFC, 0xCE, 0x9E]) == [0x9E]
  {
    var s: seq<byte> := [0xFC, 0xCE, 0x9E];
    SystematicGlyphs(0x9E);
    assert s[..3] == s && s[3..] == [];
    DecodeFront(s, 0x9E);
  }

  /** The two-byte hash of a lead byte F0..FF and one byte after it can equal the three-byte
      hash of a glyph: FE 54 hashes to 0xFE54, the slot of EF B9 94 (the glyph of ';'), so
      two bytes that belong to no glyph decode to 0x3B. */
  lemma TwoByteHashMeetsThreeByteGlyph()
    ensures Decode([0xFE, 0x54]) == [0x3B]
  {
    var s: seq<byte> := [0xFE, 0x54];
    MakeUtf8OfLiteral([0xEF, 0xB9, 0x94]);
    assert s[..2] == s && s[2..] == [];
    DecodeFront(s, 0x3B);
  }
}

=== FILE: layout.dfy ===
/** The text layer around the codec: the encoder's optional grouping of glyphs into
    space-separated groups and lines (`format_output`), and the decoder's removal of layout
    bytes before decoding (`clean_decode_input`). */
module Layout {
  import opened Bytes
  import opened Utf8
  import opened CodeTable
  import opened Codec
  import opened Arith

  /** The bytes of `x` that `drop` does not select, in their original order. */
  function Filter(x: seq<byte>, drop: byte -> bool): seq<byte> {
    if |x| == 0 then []
    else (if drop(x[0]) then [] else [x[0]]) + Filter(x[1..], drop)
  }

  /** The cleaner: every space, tab, line feed and carriage return removed. */
  function Clean(x: seq<byte>): seq<byte> {
    Filter(x, IsLayout)
  }

  /** The two bytes the formatter inserts. */
  predicate IsSeparator(c: byte) {
    c == Space || c == Newline
  }

  /** Filtering distributes over concatenation, so it keeps the order of what it keeps. */
  lemma {:induction false} FilterConcat(a: seq<byte>, b: seq<byte>, drop: byte -> bool)
    ensures Filter(a + b, drop) == Filter(a, drop) + Filter(b, drop)
  {
    if |a| == 0 {
      assert a + b == b;
    } else {
      assert (a + b)[1..] == a[1..] + b;
      FilterConcat(a[1..], b, drop);
    }
  }

  /** Filtering never lengthens. */
  lemma {:induction false} FilterLength(x: seq<byte>, drop: byte -> bool)
    ensures |Filter(x, drop)| <= |x|
  {
    if |x| > 0 {
      FilterLength(x[1..], drop);
    }
  }

  /** Nothing that `drop` selects survives. */
  lemma {:induction false} FilterDropsSelected(x: seq<byte>, drop: byte -> bool)
    ensures forall j :: 0 <= j < |Filter(x, drop)| ==> !drop(Filter(x, drop)[j])
  {
    if |x| > 0 {
      FilterDropsSelected(x[1..], drop);
    }
  }

  /** Filtering removes nothing from a sequence without selected bytes, and only such
      sequences come back unchanged. */
  lemma {:induction false} FilterIdentity(x: seq<byte>, drop: byte -> bool)
    ensures Filter(x, drop) == x <==> forall j :: 0 <= j < |x| ==> !drop(x[j])
  {
    FilterDropsSelected(x, drop);
    FilterLength(x, drop);
    if |x| > 0 {
      FilterIdentity(x[1..], drop);
      if !drop(x[0]) && Filter(x, drop) == x {
        assert Filter(x[1..], drop) == x[1..];
      }
      if forall j :: 0 <= j < |x| ==> !drop(x[j]) {
        assert forall j :: 0 <= j < |x[1..]| ==> !drop(x[1..][j]);
        assert x == [x[0]] + x[1..];
      }
    }
  }

  /** The cleaner removes exactly the layout bytes: each other byte value keeps its number of
      occurrences, and no layout byte is left. */
  lemma {:induction false} CleanCounts(x: seq<byte>)
    ensures forall c: byte :: multiset(Clean(x))[c] == if IsLayout(c) then 0 else multiset(x)[c]
  {
    if |x| > 0 {
      CleanCounts(x[1..]);
      assert x == [x[0]] + x[1..];
      assert multiset(x) == multiset([x[0]]) + multiset(x[1..]);
    }
  }

  /** Cleaned text holds no layout byte. */
  lemma CleanHasNoLayout(x: seq<byte>)
    ensures forall j :: 0 <= j < |Clean(x)| ==> !IsLayout(Clean(x)[j])
  {
    FilterDropsSelected(x, IsLayout);
  }

  /** Cleaning leaves text without layout unchanged, and changes any other text. */
  lemma CleanIdentity(x: seq<byte>)
    ensures Clean(x) == x <==> forall j :: 0 <= j < |x| ==> !IsLayout(x[j])
  {
    FilterIdentity(x, IsLayout);
  }

  /** Cleaning twice is cleaning once. */
  lemma CleanIdempotent(x: seq<byte>)
    ensures Clean(Clean(x)) == Clean(x)
  {
    CleanHasNoLayout(x);
    CleanIdentity(Clean(x));
  }

  /** The separator the formatter writes after the `count`-th character when more input
      follows: a space after each full group, and a line feed after the space that closes
      each full line of groups. */
  function Sep(count: nat, g: nat, k: nat, more: bool): (r: seq<byte>)
    requires g > 0 && k > 0
    ensures |r| <= 2 && forall j :: 0 <= j < |r| ==> IsSeparator(r[j])
  {
    if more && count % g == 0 then
      [Space] + (if (count / g) % k == 0 then [Newline] else [])
    else []
  }

  /** The grouping rule stated on the character count alone: nothing when the input ends
      or the group is incomplete, a space after every `g`-th character, and a space and a
      line feed after every `g * k`-th. */
  lemma SepRule(c: nat, g: nat, k: nat, more: bool)
    requires g > 0 && k > 0
    ensures g * k > 0
    ensures Sep(c, g, k, more) ==
      if !more || c % g != 0 then []
      else if c % (g * k) == 0 then [Space, Newline]
      else [Space]
  {
    MulAtLeast(g, k);
    if more && c % g == 0 {
      if (c / g) % k == 0 {
        NestedMultiple(c, g, k);
      } else if c % (g * k) == 0 {
        ProductMultiple(c, g, k);
      }
    }
  }

  /** Where the character starting at byte `i` ends: the lead byte's announced length, cut at
      the end of the input. */
  function CharEnd(x: seq<byte>, i: nat): (e: nat)
    requires i < |x|
    ensures i < e <= |x| && e - i <= MaxUtf8Bytes
  {
    if i + SeqLen(x[i]) < |x| then i + SeqLen(x[i]) else |x|
  }

  /** The formatter from byte position `i`, after `count` characters: each character is
      written whole and followed by its separator. The C loop moves `i` by the uncut length;
      the cut position used here writes the same bytes and makes the same "more input
      follows" test. */
  function FormatFrom(x: seq<byte>, g: nat, k: nat, i: nat, count: nat): seq<byte>
    requires g > 0 && k > 0 && i <= |x|
    decreases |x| - i
  {
    if i == |x| then []
    else
      var next := CharEnd(x, i);
      x[i..next] + Sep(count + 1, g, k, next < |x|) + FormatFrom(x, g, k, next, count + 1)
  }

  /** The formatter: `g` characters per group, `k` groups per line. */
  function Format(x: seq<byte>, g: nat, k: nat): seq<byte>
    requires g > 0 && k > 0
  {
    FormatFrom(x, g, k, 0, 0)
  }

  /** The C code's size estimate for formatted output. */
  function Estimate(n: nat, g: nat, k: nat): nat
    requires g > 0 && k > 0
  {
    MulAtLeast(g, k);
    DivBounds(n, g);
    DivBounds(n, g * k);
    n + n / g + n / (g * k)
  }

  /** One character of the formatter under a filter that drops both separators: the
      separator disappears and the character's bytes are filtered as in the input. */
  lemma FormatStepFilter(x: seq<byte>, g: nat, k: nat, i: nat, count: nat, drop: byte -> bool)
    requires g > 0 && k > 0 && i < |x|
    requires drop(Space) && drop(Newline)
    ensures Filter(FormatFrom(x, g, k, i, count), drop) ==
      Filter(x[i..CharEnd(x, i)], drop) + Filter(FormatFrom(x, g, k, CharEnd(x, i), count + 1), drop)
    ensures Filter(x[i..], drop) == Filter(x[i..CharEnd(x, i)], drop) + Filter(x[CharEnd(x, i)..], drop)
  {
    var next := CharEnd(x, i);
    var chunk := x[i..next];
    var sep := Sep(count + 1, g, k, next < |x|);
    FilterConcat(chunk + sep, FormatFrom(x, g, k, next, count + 1), drop);
    FilterConcat(chunk, sep, drop);
    SeparatorsDropped(sep, drop);
    assert Filter(chunk + sep, drop) == Filter(chunk, drop);
    FilterConcat(chunk, x[next..], drop);
    assert chunk + x[next..] == x[i..];
  }

  /** The formatter only inserts separators: with spaces and line feeds (and possibly more)
      filtered out, formatted text and its input agree. */
  lemma {:induction false} FormatFromFilter(x: seq<byte>, g: nat, k: nat, i: nat, count: nat,
                                            drop: byte -> bool)
    requires g > 0 && k > 0 && i <= |x|
    requires drop(Space) && drop(Newline)
    ensures Filter(FormatFrom(x, g, k, i, count), drop) == Filter(x[i..], drop)
    decreases |x| - i
  {
    if i < |x| {
      FormatStepFilter(x, g, k, i, count, drop);
      FormatFromFilter(x, g, k, CharEnd(x, i), count + 1, drop);
    } else {
      assert x[i..] == [];
    }
  }

  /** A filter that drops both separators removes every byte of a separator run. */
  lemma {:induction false} SeparatorsDropped(sep: seq<byte>, drop: byte -> bool)
    requires drop(Space) && drop(Newline)
    requires forall j :: 0 <= j < |sep| ==> IsSeparator(sep[j])
    ensures Filter(sep, drop) == []
  {
    if |sep| > 0 {
      SeparatorsDropped(sep[1..], drop);
    }
  }

  /** Removing spaces and line feeds from formatted text gives back the input with its own
      spaces and line feeds removed; for glyph text, which has none, the input itself. */
  lemma FormatOnlyInsertsSeparators(x: seq<byte>, g: nat, k: nat)
    requires g > 0 && k > 0
    ensures Filter(Format(x, g, k), IsSeparator) == Filter(x, IsSeparator)
    ensures (forall j :: 0 <= j < |x| ==> !IsSeparator(x[j])) ==>
      Filter(Format(x, g, k), IsSeparator) == x
  {
    FormatFromFilter(x, g, k, 0, 0, IsSeparator);
    assert x[0..] == x;
    FilterIdentity(x, IsSeparator);
  }

  /** Cleaning undoes formatting. */
  lemma CleanUndoesFormat(x: seq<byte>, g: nat, k: nat)
    requires g > 0 && k > 0
    ensures Clean(Format(x, g, k)) == Clean(x)
  {
    FormatFromFilter(x, g, k, 0, 0, IsLayout);
    assert x[0..] == x;
  }

  /** Formatted text starts with the input's first byte and ends with its last: no separator
      is written before the first character or after the last. */
  lemma {:induction false} FormatFromEnds(x: seq<byte>, g: nat, k: nat, i: nat, count: nat)
    requires g > 0 && k > 0 && i < |x|
    ensures |FormatFrom(x, g, k, i, count)| > 0
    ensures FormatFrom(x, g, k, i, count)[0] == x[i]
    ensures FormatFrom(x, g, k, i, count)[|FormatFrom(x, g, k, i, count)| - 1] == x[|x| - 1]
    decreases |x| - i
  {
    var next := CharEnd(x, i);
    var sep := Sep(count + 1, g, k, next < |x|);
    var rest := FormatFrom(x, g, k, next, count + 1);
    assert FormatFrom(x, g, k, i, count) == x[i..next] + sep + rest;
    if next < |x| {
      FormatFromEnds(x, g, k, next, count + 1);
      assert rest[|rest| - 1] == x[|x| - 1];
    } else {
      assert sep == [] && rest == [];
    }
  }

  lemma FormatEnds(x: seq<byte>, g: nat, k: nat)
    requires g > 0 && k > 0 && |x| > 0
    ensures |Format(x, g, k)| > 0
    ensures Format(x, g, k)[0] == x[0] && Format(x, g, k)[|Format(x, g, k)| - 1] == x[|x| - 1]
  {
    FormatFromEnds(x, g, k, 0, 0);
  }

  /** Every line feed comes right after a space. */
  predicate NewlinesFollowSpaces(s: seq<byte>) {
    forall j :: 0 <= j < |s| && s[j] == Newline ==> 0 < j && s[j - 1] == Space
  }

  lemma NewlinesFollowSpacesConcat(a: seq<byte>, b: seq<byte>)
    requires NewlinesFollowSpaces(a) && NewlinesFollowSpaces(b)
    ensures NewlinesFollowSpaces(a + b)
  {
    forall j | 0 <= j < |a + b| && (a + b)[j] == Newline
      ensures 0 < j && (a + b)[j - 1] == Space
    {
      if j >= |a| {
        assert b[j - |a|] == Newline;
      }
    }
  }

  /** In formatted text of an input without line feeds, every line feed is the one written
      right after the space that closes a line of groups. */
  lemma {:induction false} FormatFromNewlines(x: seq<byte>, g: nat, k: nat, i: nat, count: nat)
    requires g > 0 && k > 0 && i <= |x|
    requires forall j :: 0 <= j < |x| ==> x[j] != Newline
    ensures NewlinesFollowSpaces(FormatFrom(x, g, k, i, count))
    decreases |x| - i
  {
    if i < |x| {
      var next := CharEnd(x, i);
      var sep := Sep(count + 1, g, k, next < |x|);
      FormatFromNewlines(x, g, k, next, count + 1);
      assert NewlinesFollowSpaces(x[i..next]);
      assert NewlinesFollowSpaces(sep);
      NewlinesFollowSpacesConcat(x[i..next], sep);
      NewlinesFollowSpacesConcat(x[i..next] + sep, FormatFrom(x, g, k, next, count + 1));
    }
  }

  lemma FormatNewlines(x: seq<byte>, g: nat, k: nat)
    requires g > 0 && k > 0
    requires forall j :: 0 <= j < |x| ==> x[j] != Newline
    ensures NewlinesFollowSpaces(Format(x, g, k))
  {
    FormatFromNewlines(x, g, k, 0, 0);
  }

  /** The separator after character `c + 1` costs at most what the estimate grants for it. */
  lemma SepWithinEstimate(c: nat, g: nat, k: nat, more: bool)
    requires g > 0 && k > 0
    ensures |Sep(c + 1, g, k, more)| + c / g + c / (g * k) <= (c + 1) / g + (c + 1) / (g * k)
  {
    MulAtLeast(g, k);
    DivStep(c, g);
    DivStep(c, g * k);
    if more && (c + 1) % g == 0 && ((c + 1) / g) % k == 0 {
      NestedMultiple(c + 1, g, k);
    }
  }

  lemma {:induction false} FormatFromLength(x: seq<byte>, g: nat, k: nat, i: nat, count: nat)
    requires g > 0 && k > 0 && count <= i <= |x|
    ensures |x| - i <= |FormatFrom(x, g, k, i, count)|
    ensures |FormatFrom(x, g, k, i, count)| + i + count / g + count / (g * k) <= Estimate(|x|, g, k)
    decreases |x| - i
  {
    MulAtLeast(g, k);
    if i == |x| {
      EstimateCovers(|x|, g, k, count);
    } else {
      var next := CharEnd(x, i);
      var sep := Sep(count + 1, g, k, next < |x|);
      var rest := FormatFrom(x, g, k, next, count + 1);
      assert FormatFrom(x, g, k, i, count) == x[i..next] + sep + rest;
      SepWithinEstimate(count, g, k, next < |x|);
      FormatFromLength(x, g, k, next, count + 1);
      SumWithin(|FormatFrom(x, g, k, i, count)|, |sep|, |rest|, i, next,
        count / g + count / (g * k), (count + 1) / g + (count + 1) / (g * k), Estimate(|x|, g, k));
    }
  }

  /** What the estimate grants for `n` bytes covers `n` plus the separators of `count <= n`
      characters. */
  lemma EstimateCovers(n: nat, g: nat, k: nat, count: nat)
    requires g > 0 && k > 0 && count <= n
    ensures g * k > 0 && n + count / g + count / (g * k) <= Estimate(n, g, k)
  {
    MulAtLeast(g, k);
    DivMonotone(count, n, g);
    DivMonotone(count, n, g * k);
  }

  /** The length bookkeeping of one formatter step, free of division: a character of
      `next - i` bytes, its separator, and the rest. */
  lemma SumWithin(total: int, sepLen: int, restLen: int, i: int, next: int, d0: int, d1: int, e: int)
    requires i <= next && total == (next - i) + sepLen + restLen
    requires sepLen + d0 <= d1 && restLen + next + d1 <= e
    ensures total + i + d0 <= e
  {
  }

  /** Formatted text fits the C code's estimate, so the pre-sized buffer never overflows. */
  lemma FormatWithinEstimate(x: seq<byte>, g: nat, k: nat)
    requires g > 0 && k > 0
    ensures |x| <= |Format(x, g, k)| <= Estimate(|x|, g, k)
  {
    FormatFromLength(x, g, k, 0, 0);
  }

  /** A reference formatter on the bytes before encoding: each byte's glyph, whole, followed
      by the separator due after the c-th glyph. */
  function FormatGlyphs(y: seq<byte>, g: nat, k: nat, c: nat): seq<byte>
    requires g > 0 && k > 0
  {
    if y == [] then []
    else Glyph(y[0]) + Sep(c + 1, g, k, |y| > 1) + FormatGlyphs(y[1..], g, k, c + 1)
  }

  /** On encoded text the formatter's character at position `i` is exactly the next glyph,
      and more input follows it exactly when more bytes were encoded. */
  lemma FormatGlyphStep(e: seq<byte>, i: nat, y: seq<byte>)
    requires i <= |e| && e[i..] == Encode(y) && y != []
    ensures i < |e| && CharEnd(e, i) == i + |Glyph(y[0])|
    ensures e[i..CharEnd(e, i)] == Glyph(y[0]) && e[CharEnd(e, i)..] == Encode(y[1..])
    ensures CharEnd(e, i) < |e| <==> |y| > 1
  {
    var glyph, rest := Glyph(y[0]), Encode(y[1..]);
    GlyphAnnouncesLength(y[0]);
    assert Encode(y) == glyph + rest;
    CharEndAt(e, i, glyph, rest);
    assert |rest| >= |y[1..]| == |y| - 1;
    assert |rest| <= 3 * |y[1..]|;
  }

  /** A character whose lead byte announces its own length is read whole. */
  lemma CharEndAt(e: seq<byte>, i: nat, glyph: seq<byte>, rest: seq<byte>)
    requires i <= |e| && e[i..] == glyph + rest
    requires 1 <= |glyph| && SeqLen(glyph[0]) == |glyph|
    ensures i < |e| && CharEnd(e, i) == i + |glyph|
    ensures e[i..CharEnd(e, i)] == glyph && e[CharEnd(e, i)..] == rest
  {
    assert e[i] == (glyph + rest)[0] == glyph[0];
    var n := |glyph|;
    assert e[i..i + n] == (e[i..])[..n] == glyph;
    assert e[i + n..] == (e[i..])[n..] == rest;
  }

  lemma {:induction false} FormatFromGlyphs(e: seq<byte>, g: nat, k: nat, i: nat, c: nat,
                                            y: seq<byte>)
    requires g > 0 && k > 0 && i <= |e| && e[i..] == Encode(y)
    ensures FormatFrom(e, g, k, i, c) == FormatGlyphs(y, g, k, c)
    decreases |y|
  {
    if y == [] {
      assert |e[i..]| == 0;
    } else {
      FormatGlyphStep(e, i, y);
      FormatFromGlyphs(e, g, k, CharEnd(e, i), c + 1, y[1..]);
    }
  }

  /** Formatting encoded text groups whole glyphs: the c-th separator comes right after the
      c-th glyph, and none falls inside a glyph. */
  lemma FormatKeepsGlyphsWhole(x: seq<byte>, g: nat, k: nat)
    requires g > 0 && k > 0
    ensures Format(Encode(x), g, k) == FormatGlyphs(x, g, k, 0)
  {
    assert Encode(x)[0..] == Encode(x);
    FormatFromGlyphs(Encode(x), g, k, 0, 0, x);
  }

  /** The full text round trip: encode, format with any grouping, clean, decode. */
  lemma FormattedRoundTrip(x: seq<byte>, g: nat, k: nat)
    requires g > 0 && k > 0
    ensures Decode(Clean(Format(Encode(x), g, k))) == x
  {
    CleanUndoesFormat(Encode(x), g, k);
    EncodeHasNoLayout(x);
    CleanIdentity(Encode(x));
    RoundTrip(x);
  }

  /** Three one-byte characters, one per group, two groups per line: a space after every
      character but the last, a line feed after the space that completes a line, and nothing
      after the end. */
  lemma FormatExample()
    ensures Format([0x61, 0x62, 0x63], 1, 2) == [0x61, Space, 0x62, Space, Newline, 0x63]
  {
    var x: seq<byte> := [0x61, 0x62, 0x63];
    assert CharEnd(x, 0) == 1 && CharEnd(x, 1) == 2 && CharEnd(x, 2) == 3;
    assert Sep(1, 1, 2, true) == [Space];
    assert Sep(2, 1, 2, true) == [Space, Newline];
    assert Sep(3, 1, 2, false) == [];
    var tail := FormatFrom(x, 1, 2, 2, 2);
    assert tail == x[2..3] + [] + FormatFrom(x, 1, 2, 3, 3);
    assert tail == [0x63];
    var mid := FormatFrom(x, 1, 2, 1, 1);
    assert mid == x[1..2] + [Space, Newline] + tail;
    assert FormatFrom(x, 1, 2, 0, 0) == x[0..1] + [Space] + mid;
  }
}

=== FILE: utf8.dfy ===
/** The UTF-8 helpers of the codec: the NUL-terminated string copy that builds a table
    entry, the hash that indexes the decode table, and lead-byte classification. */
module Utf8 {
  import opened Bytes

  /** Capacity of the byte array inside one table entry. */
  const MaxUtf8Bytes: nat := 4

  /** Number of slots of the decode table (and of its validity flags). */
  const DecodeMapSize: nat := 65536

  /** C's `strlen` from position `from`: the index of the first NUL at or after `from`. */
  function StrLen(cstr: seq<byte>, from: nat): (n: nat)
    requires from < |cstr| && cstr[|cstr| - 1] == 0
    ensures from <= n < |cstr| && cstr[n] == 0
    ensures forall j :: from <= j < n ==> cstr[j] != 0
    decreases |cstr| - from
  {
    if cstr[from] == 0 then from else StrLen(cstr, from + 1)
  }

  /** Builds a table entry from a NUL-terminated character array that fits an entry: the
      entry holds the bytes before the first NUL. */
  function MakeUtf8(cstr: seq<byte>): (r: seq<byte>)
    requires 0 < |cstr| <= MaxUtf8Bytes + 1 && cstr[|cstr| - 1] == 0
    ensures |r| <= MaxUtf8Bytes && |r| < |cstr|
    ensures r == cstr[..|r|] && cstr[|r|] == 0
    ensures forall j :: 0 <= j < |r| ==> r[j] != 0
  {
    cstr[..StrLen(cstr, 0)]
  }

  /** The decode-table key of a 1-, 2- or 3-byte slice (0 for any other length), written
      with arithmetic; the C code's masks and shifts are `BitwiseHash`, and `HashIsBitwise`
      shows the two agree. Continuation bytes are not checked. */
  function Hash(s: seq<byte>): (h: nat)
    ensures h < DecodeMapSize
    ensures |s| == 1 ==> h == s[0]
  {
    if |s| == 1 then s[0]
    else if |s| == 2 then (s[0] as int) * 256 + s[1]
    else if |s| == 3 then (s[0] % 16) as int * 4096 + (s[1] % 64) as int * 64 + s[2] % 64
    else 0
  }

  /** A three-byte key lies in the 4096-wide band picked by the lead byte's low nibble. */
  lemma ThreeByteHashBand(a: byte, b: byte, c: byte)
    ensures (a % 16) * 4096 <= Hash([a, b, c]) < (a % 16) * 4096 + 4096
  {
    assert (b % 64) * 64 + c % 64 <= 63 * 64 + 63;
  }

  /** Octets as the C code holds them (`uint8_t`), read as bytes of this model. */
  function OctetsToBytes(s: seq<bv8>): (r: seq<byte>)
    ensures |r| == |s| && forall j :: 0 <= j < |s| ==> r[j] == s[j] as int
  {
    seq(|s|, j requires 0 <= j < |s| => s[j] as int)
  }

  /** `utf8_hash` with the C code's own operators on 16-bit values. */
  function BitwiseHash(s: seq<bv8>): bv16 {
    if |s| == 1 then s[0] as bv16
    else if |s| == 2 then Join2(s[0], s[1])
    else if |s| == 3 then Join3(s[0], s[1], s[2])
    else 0
  }

  function Join2(a: bv8, b: bv8): bv16 {
    ((a as bv16) << 8) | (b as bv16)
  }

  function Join3(a: bv8, b: bv8, c: bv8): bv16 {
    (((a as bv16) & 0x0F) << 12) | (((b as bv16) & 0x3F) << 6) | ((c as bv16) & 0x3F)
  }

  /** The arithmetic hash is the C code's bitwise one, on every input of every length. */
  lemma HashIsBitwise(s: seq<bv8>)
    ensures BitwiseHash(s) as int == Hash(OctetsToBytes(s))
  {
    if |s| == 2 {
      Join2Value(s[0], s[1]);
    } else if |s| == 3 {
      Join3Value(s[0], s[1], s[2]);
    }
  }

  lemma Join2Value(a: bv8, b: bv8)
    ensures Join2(a, b) as int == a as int * 256 + b as int
  {
    var x, y := a as bv16, b as bv16;
    Extend(a);
    Extend(b);
    Pack2(x, y);
    assert Join2(a, b) == (x << 8) | y;
  }

  lemma Join3Value(a: bv8, b: bv8, c: bv8)
    ensures Join3(a, b, c) as int == (a as int % 16) * 4096 + (b as int % 64) * 64 + c as int % 64
  {
    var x, y, z := (a as bv16) & 0x0F, (b as bv16) & 0x3F, (c as bv16) & 0x3F;
    Low4(a);
    Low6(b);
    Low6(c);
    Pack3(x, y, z);
    assert Join3(a, b, c) == (x << 12) | (y << 6) | z;
  }

  lemma Extend(a: bv8)
    ensures (a as bv16) as int == a as int && a as bv16 < 256
  {
  }

  lemma Low4(a: bv8)
    ensures ((a as bv16) & 0x0F) as int == (a as int) % 16 && (a as bv16) & 0x0F < 16
  {
  }

  lemma Low6(a: bv8)
    ensures ((a as bv16) & 0x3F) as int == (a as int) % 64 && (a as bv16) & 0x3F < 64
  {
  }

  lemma Pack2(x: bv16, y: bv16)
    requires x < 256 && y < 256
    ensures ((x << 8) | y) as int == x as int * 256 + y as int
  {
  }

  lemma Pack3(x: bv16, y: bv16, z: bv16)
    requires x < 16 && y < 64 && z < 64
    ensures ((x << 12) | (y << 6) | z) as int == x as int * 4096 + y as int * 64 + z as int
  {
  }

  /** The lead-byte rule of RFC 3629 (section 4): the sequence length a well-formed lead byte
      announces, None for bytes that cannot start a well-formed sequence. */
  function StandardLength(c: byte): Option<nat> {
    if c < 0x80 then Some(1)
    else if 0xC2 <= c <= 0xDF then Some(2)
    else if 0xE0 <= c <= 0xEF then Some(3)
    else if 0xF0 <= c <= 0xF4 then Some(4)
    else None
  }

  /** The sequence length the codec assumes for a lead byte. It agrees with RFC 3629 on every
      well-formed lead byte, but also answers 2 for continuation bytes and C0/C1, and 4 for
      F5..FF. */
  function SeqLen(c: byte): (n: nat)
    ensures 1 <= n <= 4
    ensures StandardLength(c).Some? ==> n == StandardLength(c).value
    ensures 0x80 <= c <= 0xC1 ==> n == 2
    ensures 0xF5 <= c ==> n == 4
  {
    if c < 0x80 then 1
    else if c < 0xE0 then 2
    else if c < 0xF0 then 3
    else 4
  }
}
